=== FILE: README.md ===
# darkice AAC encoder frame accumulator, in Dafny

This project models the core of darkice's fdk-aac encoder wrapper, `aacPlusEncoder`
(`darkice/trunk/src/aacPlusEncoder.cpp`). It covers four operations:

- **`open`** derives the codec parameters from the configuration: the audio object type (AAC-LC, SBR or
  parametric stereo) from the bit rate and input channel count, and the channel layout from the output
  channel count. It fixes the per-frame input size `inputSamples = InChannels * frameLength`, resets the
  resampler's carry-over buffer, and marks the session open. It closes a running session first.
- **`write`** keeps only the whole PCM samples of an arbitrary byte buffer.
  - With a resampler, it appends the converted samples after the leftover in the carry-over buffer
    `resampledOffset`. It then encodes whole frames while one is available, hands each encoded frame to the
    downstream sink, and moves the unconsumed tail to the front with `memmove`. The model moves the whole
    tail. The C++ code's `memmove` length is right only for 16-bit input (see "## Findings").
  - Without a resampler, it slices the samples into chunks of at most `inputSamples`. The last chunk may be
    shorter. Each chunk is encoded and written at once; the model records where each chunk starts.
  - It returns `samples * sampleSize`.
- **`flush`** and **`close`** act only on an open session.

Module by module:

- `AacParams` holds the parameter choices, as functions with lemmas.
- `PcmAlignment` holds the sample-alignment arithmetic and the value `write` returns.
- `FrameBatching` holds the batching arithmetic, stated on sequences: frames, remainder, chunk sizes and
  the compaction.
- `AacPlus` holds the encoder itself, as the class `AacPlusEncoder`:
  - the carry-over is an `array<int>` with its counter `carrySize`;
  - each `write` loop is a method with loop invariants;
  - every sink write is recorded in the ghost log `deliveries`, which is specified by `DeliverFrames` and
    `DeliverChunks`.
- `Arith` holds small multiplication and division facts and the sum of a sequence of counts.

The model stands in for the parts it cannot see:

- The codec is a function of the write's position in the session log and of its input. The input is a
  whole frame of carry-over samples, or, on the direct path, a chunk given by its first sample and its size.
  The position lets equal inputs encode differently, as a stateful encoder does.
- The sink's write is a function of the write's position and the bytes, giving how many bytes it accepted.
  So any pattern of full and cut writes can be expressed.
- The resampler's output is a parameter of `write`.
- The replies of the fdk-aac setup calls are a `CodecReplies` value.
- An exception thrown by `open` becomes an `OpenFailed` outcome naming the step that failed.

Two behaviours are modelled as the code has them, and stated in the contracts:

- On the direct path the final short chunk is encoded straight away; nothing is carried over.
- The return value is `processed * channels` rather than the number of bytes consumed.
  `PcmAlignment.ReturnExceedsLength` shows it exceeds the buffer length for two or more channels.

## Model

| member | source | states |
|---|---|---|
| AacParams.ObjectTypeFor | darkice/trunk/src/aacPlusEncoder.cpp:89-100 | AAC-LC exactly when bitrate*1000 >= 64000; SBR exactly when 32000 < bitrate*1000 < 64000, or at or below 32000 with one input channel; PS exactly when at or below 32000 with any other channel count |
| AacParams.ObjectTypeMonotone | darkice/trunk/src/aacPlusEncoder.cpp:89-100 | raising the bit rate never selects more bandwidth-saving tools (PS > SBR > AAC-LC) |
| AacParams.ChannelModeFor | darkice/trunk/src/aacPlusEncoder.cpp:114-128 | a layout exists exactly for 1..6 output channels, and the chosen layout's channel groups add up to the requested count |
| AacParams.ChannelModeRoundTrip | darkice/trunk/src/aacPlusEncoder.cpp:114-128 | each of the six layouts is the one chosen for its own channel count, so the mapping is one-to-one |
| PcmAlignment.AlignedLength | darkice/trunk/src/aacPlusEncoder.cpp:224-227 | `processed` is a multiple of sampleSize, at most len, and less than one sample short of len |
| PcmAlignment.AlignedLengthIsLargest | darkice/trunk/src/aacPlusEncoder.cpp:226 | no longer whole-sample prefix exists: the trailing partial sample is dropped, not kept |
| PcmAlignment.ReturnIsAlignedTimesChannels | darkice/trunk/src/aacPlusEncoder.cpp:332 | the return value `samples * sampleSize`, with samples = nSamples * channels, equals processed * channels |
| PcmAlignment.ReturnExceedsLength | darkice/trunk/src/aacPlusEncoder.cpp:332 | with two or more channels and at least one whole sample, the returned count is larger than len |
| FrameBatching.Frames | darkice/trunk/src/aacPlusEncoder.cpp:258-292 | every frame the drain loop takes has exactly inputSamples entries |
| FrameBatching.FramesConserve | darkice/trunk/src/aacPlusEncoder.cpp:254-306 | the drained frames laid end to end, followed by the leftover, give back the carry-over stream in order; the leftover is shorter than one frame |
| FrameBatching.FrameCount | darkice/trunk/src/aacPlusEncoder.cpp:258-292 | the number of frames is the stream length divided by the frame size, and the leftover is the remainder of that division |
| FrameBatching.ChunksBounded | darkice/trunk/src/aacPlusEncoder.cpp:308-326 | every direct-path chunk is non-empty and at most inputSamples; all but the last are exactly inputSamples |
| FrameBatching.ChunksSum | darkice/trunk/src/aacPlusEncoder.cpp:308-326 | the chunk sizes add up to samples |
| FrameBatching.ChunksCount | darkice/trunk/src/aacPlusEncoder.cpp:308-326 | there are ceil(samples / inputSamples) chunks |
| FrameBatching.Compacted | darkice/trunk/src/aacPlusEncoder.cpp:303-304 | an overlapping move to the front keeps the buffer's length |
| FrameBatching.ShortsMovedExactFor16Bit | darkice/trunk/src/aacPlusEncoder.cpp:303-304 | with 16-bit input the memmove length as written covers exactly the leftover |
| FrameBatching.MemmoveAsWrittenKeepsLeftover | darkice/trunk/src/aacPlusEncoder.cpp:295-305 | with input samples of two bytes or more, the memmove length as written covers at least the whole leftover, and on every carry-over long enough for the as-written length the leftover lands at the front in order |
| FrameBatching.MemmoveAsWrittenLosesLeftover | darkice/trunk/src/aacPlusEncoder.cpp:295-305 | with one-byte input samples, the memmove length as written moves fewer entries than are left over, and on some carry-over the front no longer holds the leftover |
| FrameBatching.LeftoverCorruptedFor8BitInput | darkice/trunk/src/aacPlusEncoder.cpp:303-304 | a concrete mono 8-bit case that the drain loop can reach (five entries, a frame of three, leftover [40, 50]) in which the compacted carry-over as written starts [40, 20] instead of the leftover |
| AacPlus.DeliverFramesInOrder | darkice/trunk/src/aacPlusEncoder.cpp:280-292 | for every codec and every sink, position by position: one sink write per frame, in buffer order. The i-th write carries the codec's bytes for the i-th frame and the sink's reply at that position. |
| AacPlus.DeliverChunksInOrder | darkice/trunk/src/aacPlusEncoder.cpp:313-325 | for every codec and every sink, position by position: one sink write per chunk, in order. The i-th chunk starts at the sum of the sizes before it. |
| AacPlus.SecondChunkCut | darkice/trunk/src/aacPlusEncoder.cpp:319-325 | a sink that takes the first of two full chunks and cuts the second: both writes are still made, and exactly one short write is reported |
| AacPlus.ShortWritesBounded | darkice/trunk/src/aacPlusEncoder.cpp:286-290 | short writes are only counted as reports: at most one per write, and none when the sink accepts every byte |
| AacPlus.AacPlusEncoder.Open | darkice/trunk/src/aacPlusEncoder.cpp:65-208 | closes a running session first (one sink flush, one encoder release and one sink close); succeeds exactly when the sink, the encoder, the profile, the channel layout and the settings all succeed; otherwise fails at the first failing step, naming it (sink, encoder, profile, channel layout, settings). On success: the chosen object type and layout, inputSamples = InChannels * frameLength, and, with a resampler, a fresh carry-over of size 0; without one the carry-over is untouched. A failed open leaves the frame size, the carry-over and the chosen parameters as they were. No sink write. |
| AacPlus.AacPlusEncoder.Write | darkice/trunk/src/aacPlusEncoder.cpp:214-333 | closed encoder or empty buffer: returns 0 and changes nothing. Otherwise it returns processed * channels. With a resampler, the sink receives the frames of old leftover + converted samples, in order. The new carry-over is their remainder, below one frame. The frame count is (oldSize + converted) / frameLength. Without a resampler, the sink receives the chunks of samples and the carry-over is untouched. |
| AacPlus.AacPlusEncoder.EncodeResampled | darkice/trunk/src/aacPlusEncoder.cpp:233-306 | resampling path: deliveries extended by the frames of old leftover + converted; new carry-over = their remainder; newSize + frames * frameLength = oldSize + converted; newSize < frameLength. The carry-over is the corrected compaction's, which matches the C++ code for 16-bit input only (see "## Left out"). |
| AacPlus.AacPlusEncoder.AppendConverted | darkice/trunk/src/aacPlusEncoder.cpp:244-254 | the converted samples are stored right after the leftover, and the counter grows by the samples per channel converted |
| AacPlus.AacPlusEncoder.DrainFrames | darkice/trunk/src/aacPlusEncoder.cpp:256-293 | encodes and writes exactly the whole frames of the carry-over, in order, whatever the sink replies. processedSamples is a multiple of frameLength, and less than one frame remains. The unconsumed part of the carry-over is its remainder. |
| AacPlus.AacPlusEncoder.KeepLeftover | darkice/trunk/src/aacPlusEncoder.cpp:295-306 | newSize = oldSize - processedSamples; the carry-over now starts with the old entries from processedSamples*channels on, in order; with processedSamples = 0 the buffer and its size are unchanged. This is the corrected memmove; the C++ length matches it for 16-bit input only (see "## Left out" and "## Findings"). |
| AacPlus.AacPlusEncoder.MoveToFront | darkice/trunk/src/aacPlusEncoder.cpp:303-304 | the array after the move is `Compacted` of the array before it: an overlapping move in which all reads come before all writes |
| AacPlus.AacPlusEncoder.EncodeChunks | darkice/trunk/src/aacPlusEncoder.cpp:307-327 | the sink receives one write per chunk of `Chunks(samples, inputSamples)`, in order; one report per short write; the loop never stops early |
| AacPlus.AacPlusEncoder.Flush | darkice/trunk/src/aacPlusEncoder.cpp:338-346 | forwards one flush to the sink exactly when open, and changes nothing else: no frame or partial frame is emitted |
| AacPlus.AacPlusEncoder.Close | darkice/trunk/src/aacPlusEncoder.cpp:352-363 | when open: flushes once, releases the encoder (counted), marks the session closed and closes the sink (counted). When closed: changes nothing, so a second close has no effect. |

## Left out

- The fdk-aac calls (`aacEncOpen`, `aacEncoder_SetParam`, `aacEncEncode`, `aacEncInfo`, `aacEncClose`,
  `aacplusEncEncode`) belong to a foreign library.
  - Their results are parameters: `CodecReplies` for `open`, and a codec function for the encode calls.
  - The settings calls from the channel mode on (channel mode, channel order, bit rate, ADTS,
    initialisation, lowpass, afterburner, info; darkice/trunk/src/aacPlusEncoder.cpp:130-176) are folded
    into one reply, `settingsAccepted`. The channel-layout choice before them is modelled.
  - A negative `outputBytes` error value from the encoder is not modelled; the encoded output is a byte
    sequence.
- The resampler (`converter->resample`, `Util::conv`) is floating-point and foreign numerics. Its output
  is the `resampled` parameter of `Write`.
- The carry-over capacity is computed from `resampleRatio` in floating point
  (darkice/trunk/src/aacPlusEncoder.cpp:193-198). Here it is the `carryCapacity` parameter of `Open`,
  bounded below by `2 * channels * (inputSamples + 1)`.
- AacPlus.AacPlusEncoder.Write: requires that the resampler's output fit in the carry-over. The C++ code
  sizes the carry-over once, in `open` (darkice/trunk/src/aacPlusEncoder.cpp:195-198), and never checks
  it. Each `write` appends up to `(nSamples * resampleRatio + 1) * channels` entries, and `nSamples`
  grows with `len` (:244-251), so a large enough buffer overruns the C++ carry-over. The model does not
  describe that overrun.
- On the direct path, the byte address `b + processedSamples/sampleSize` handed to the encoder
  (darkice/trunk/src/aacPlusEncoder.cpp:314) is not modelled. The codec sees the chunk's first sample
  index, `processedSamples`, and its size.
- AacPlus.AacPlusEncoder.Write: the carry-over compaction moves the whole leftover, `carrySize * channels`
  entries. The C++ code moves `resampledOffsetSize * sampleSize` bytes. That is the same only for 16-bit
  input. For 8-bit input the C++ carry-over keeps only part of the leftover. For 24- and 32-bit input it
  copies entries from beyond the leftover as well. So for input other than 16-bit, the model's carry-over
  after a write differs from the C++ code's.
- AacPlus.AacPlusEncoder.EncodeResampled: its new carry-over is the remainder of the frames, because the
  compaction inside it moves the whole leftover. The C++ code leaves that carry-over only for 16-bit
  input; for other sample widths it differs, as stated for `Write` above.
- AacPlus.AacPlusEncoder.KeepLeftover: states the corrected compaction, which moves all
  `carrySize * channels` leftover entries to the front. The C++ memmove length
  (darkice/trunk/src/aacPlusEncoder.cpp:303-304) equals that only for 16-bit input; with 8-bit input it
  moves only part of the leftover, with 24- or 32-bit input more than it.
- The `HAVE_SRC_LIB` branches (darkice/trunk/src/aacPlusEncoder.cpp:181-191, 235-242, 259-277, 299-301)
  are not modelled, including the `AACENC_ENCODE_EOF` break. The model follows the other branch, whose
  drain loop always ends by its own condition, so the below-one-frame bound holds after every write.
- Logging (`reportEvent`) is left out, except for the short-write report, which is counted. So are the
  per-call `new`/`delete` of the output and conversion buffers.
- CastSink.h and FileSink.h are not part of this model. The sink appears only as:
  - whether its `open` succeeds;
  - how many bytes each `write` accepts;
  - counts of flushes and closes, and a flag for open or closed.
- aacPlusEncoder.h is not part of this model.
  - `isOpen()` is taken to be the `aacplusOpen` flag.
  - The configuration getters are constant fields.
  - The constructor requires at least one input channel and at least 8 bits per sample, so that
    `sampleSize` is positive.
- AacPlus.AacPlusEncoder.Write: does not model the 32-bit unsigned and signed arithmetic of `len`,
  `processed`, `samples` and the return value. It uses unbounded integers, so the wrap-around for buffers
  whose `processed * channels` exceeds 2^31 is not captured.
- AacParams.ObjectTypeFor: does not model overflow of the `int` product `getOutBitrate() * 1000`.
- AacPlus.AacPlusEncoder.Open: requires a positive `frameLength` from `aacEncInfo`. The library reports
  one, and with zero the direct-path loop would never end.
- AacPlus.AacPlusEncoder.Open: an output channel count outside 1..6 leaves `mode` uninitialised in the
  C++ code, which passes it to the library anyway. The model treats it as a failure at the channel-mode
  step.

## Findings

| source | as written | input that shows it | evidently intended | confidence | as-written member | corrected member |
|---|---|---|---|---|---|---|
| darkice/trunk/src/aacPlusEncoder.cpp:303-304 | the carry-over compaction moves `resampledOffsetSize*sampleSize` bytes of a `short` buffer, where `sampleSize` is the input bytes per sample times channels | mono 8-bit input, carry-over [10, 20, 30, 40, 50] after converting, frames of 3: one frame is drained and [40, 50] is left, but 2 bytes (one entry) move, so the carry-over starts [40, 20] instead of [40, 50]. With 24- or 32-bit input the length is 1.5 or 2 times the leftover, so the memmove also reads entries past the leftover, and can read past the end of the carry-over array. | move `resampledOffsetSize*channels*sizeof(short)` bytes, the whole leftover | medium, not executed | FrameBatching.MemmoveAsWrittenLosesLeftover | AacPlus.AacPlusEncoder.KeepLeftover |

=== FILE: aac_params.dfy ===
/** The codec parameters `aacPlusEncoder::open` derives from its configuration:
    the audio object type and the channel layout handed to fdk-aac. */
module AacParams {
  import Arith

  datatype Option<T> = None | Some(value: T)

  /** fdk-aac audio object types: plain AAC-LC, HE-AAC (spectral band
      replication) and HE-AAC v2 (SBR plus parametric stereo). */
  datatype AudioObjectType = AacLc | Sbr | Ps {
    /** How many bandwidth-saving tools sit on top of AAC-LC. */
    function ExtraTools(): nat
    {
      match this
      case AacLc => 0
      case Sbr => 1
      case Ps => 2
    }
  }

  /** fdk-aac channel modes MODE_1 .. MODE_1_2_2_1. */
  datatype ChannelMode = Mode1 | Mode2 | Mode1_2 | Mode1_2_1 | Mode1_2_2 | Mode1_2_2_1 {
    /** The channel groups the name lists: a single channel (1) or a pair (2). */
    function Groups(): seq<nat>
    {
      match this
      case Mode1 => [1]
      case Mode2 => [2]
      case Mode1_2 => [1, 2]
      case Mode1_2_1 => [1, 2, 1]
      case Mode1_2_2 => [1, 2, 2]
      case Mode1_2_2_1 => [1, 2, 2, 1]
    }

    function ChannelCount(): nat
    {
      Arith.Sum(Groups())
    }
  }

  /** The object type chosen from the output bit rate (kbit/s) and the input
      channel count: AAC-LC from 64 kbit/s up, SBR strictly between 32 and 64,
      and at 32 kbit/s or below SBR for mono, parametric stereo otherwise. */
  function ObjectTypeFor(bitrateKbps: int, inChannels: int): (aot: AudioObjectType)
    ensures aot == AacLc <==> bitrateKbps * 1000 >= 64000
    ensures aot == Sbr <==> (32000 < bitrateKbps * 1000 < 64000
                             || (bitrateKbps * 1000 <= 32000 && inChannels == 1))
    ensures aot == Ps <==> bitrateKbps * 1000 <= 32000 && inChannels != 1
  {
    var bitrate := bitrateKbps * 1000;
    if bitrate >= 64000 then AacLc
    else if bitrate < 64000 && bitrate > 32000 then Sbr
    else if inChannels == 1 then Sbr else Ps
  }

  /** A higher bit rate never calls for more bandwidth-saving tools. */
  lemma ObjectTypeMonotone(low: int, high: int, inChannels: int)
    requires low <= high
    ensures ObjectTypeFor(high, inChannels).ExtraTools() <= ObjectTypeFor(low, inChannels).ExtraTools()
  {
    assert low * 1000 <= high * 1000;
  }

  /** The layout for 1 to 6 output channels; any other count has none. */
  function ChannelModeFor(outChannels: int): (mode: Option<ChannelMode>)
    ensures mode.Some? <==> 1 <= outChannels <= 6
    ensures mode.Some? ==> mode.value.ChannelCount() == outChannels
  {
    match outChannels
    case 1 => Some(Mode1)
    case 2 => Some(Mode2)
    case 3 => Some(Mode1_2)
    case 4 => Some(Mode1_2_1)
    case 5 => Some(Mode1_2_2)
    case 6 => Some(Mode1_2_2_1)
    case _ => None
  }

  /** Every layout is the one chosen for its own channel count, so the mapping
      is one-to-one. */
  lemma ChannelModeRoundTrip(mode: ChannelMode)
    ensures ChannelModeFor(mode.ChannelCount()) == Some(mode)
  {
  }
}

=== FILE: aac_plus_encoder.dfy ===
/** The fdk-aac encoding session of `aacPlusEncoder.cpp`: `open` derives the
    codec parameters, `write` aligns PCM input to whole samples and batches it
    into codec frames (through a carry-over buffer when a resampler is in use,
    directly otherwise), `flush` and `close` end the session. The codec, the
    resampler and the downstream sink are outside the model: their replies are
    parameters, and every write to the sink is recorded in `deliveries`. */
module AacPlus {
  import opened AacParams
  import opened PcmAlignment
  import opened FrameBatching
  import Arith

  /** What the codec is asked to encode: a whole frame read from the carry-over
      buffer, or a chunk of `count` samples starting at sample `offset` of the
      caller's PCM. */
  datatype CodecInput = Frame(samples: seq<int>) | Chunk(offset: nat, count: nat)

  /** One write to the downstream sink: the codec input it came from, the encoded
      bytes handed over, and how many of them the sink accepted. */
  datatype Delivery = Delivery(input: CodecInput, bytes: seq<byte>, accepted: nat)

  /** The encoder: `codec(k, input)` is what it produces for `input` as the k-th
      write of the session log; it may depend on everything encoded before. */
  type Codec = (nat, CodecInput) -> seq<byte>

  /** The sink: `sinkReply(k, bytes)` is how many of `bytes` it accepts on the
      k-th write; any pattern of full and cut writes can be expressed. */
  type SinkReply = (nat, seq<byte>) -> nat

  /** The `at`-th write of the log: encode `input`, hand the bytes to the sink. */
  function Emit(codec: Codec, sinkReply: SinkReply, at: nat, input: CodecInput): Delivery
  {
    Delivery(input, codec(at, input), sinkReply(at, codec(at, input)))
  }

  /** The sink writes made by encoding the frames `fs` one after another, the
      first of them being write number `at`. */
  function DeliverFrames(codec: Codec, sinkReply: SinkReply, at: nat, fs: seq<seq<int>>): seq<Delivery>
    decreases |fs|
  {
    if fs == [] then []
    else [Emit(codec, sinkReply, at, Frame(fs[0]))] + DeliverFrames(codec, sinkReply, at + 1, fs[1..])
  }

  /** The sink writes made by encoding chunks of the sizes `cs` one after
      another, the first starting at sample `offset` and being write number `at`. */
  function DeliverChunks(codec: Codec, sinkReply: SinkReply, at: nat, offset: nat, cs: seq<nat>): seq<Delivery>
    decreases |cs|
  {
    if cs == [] then []
    else [Emit(codec, sinkReply, at, Chunk(offset, cs[0]))]
         + DeliverChunks(codec, sinkReply, at + 1, offset + cs[0], cs[1..])
  }

  /** Whether the sink accepted only part of a write, which is then reported. */
  predicate Short(d: Delivery)
  {
    d.accepted < |d.bytes|
  }

  /** How many of the writes `ds` the sink accepted only in part. */
  function ShortWrites(ds: seq<Delivery>): nat
    decreases |ds|
  {
    if ds == [] then 0
    else (if Short(ds[0]) then 1 else 0) + ShortWrites(ds[1..])
  }

  lemma AppendAssoc<T>(a: seq<T>, b: seq<T>, c: seq<T>)
    ensures a + (b + c) == (a + b) + c
  {
  }

  /** Encoding the frame at `start` and then the frames after it is encoding
      every frame of `stream[start..]`. */
  lemma DrainStep(codec: Codec, sinkReply: SinkReply, at: nat, stream: seq<int>, start: nat, w: nat)
    requires w > 0 && start + w <= |stream|
    ensures var d := Emit(codec, sinkReply, at, Frame(stream[start..start + w]));
            && DeliverFrames(codec, sinkReply, at, Frames(stream[start..], w))
               == [d] + DeliverFrames(codec, sinkReply, at + 1, Frames(stream[start + w..], w))
            && ShortWrites(DeliverFrames(codec, sinkReply, at, Frames(stream[start..], w)))
               == (if Short(d) then 1 else 0)
                  + ShortWrites(DeliverFrames(codec, sinkReply, at + 1, Frames(stream[start + w..], w)))
            && |Frames(stream[start..], w)| == 1 + |Frames(stream[start + w..], w)|
            && Remainder(stream[start..], w) == Remainder(stream[start + w..], w)
  {
    FramesFrom(stream, start, w);
    var fs := Frames(stream[start..], w);
    assert fs[1..] == Frames(stream[start + w..], w);
    var ds := DeliverFrames(codec, sinkReply, at, fs);
    assert ds[1..] == DeliverFrames(codec, sinkReply, at + 1, Frames(stream[start + w..], w));
  }

  /** Encoding the next chunk of `rest` samples and then the chunks after it is
      encoding every chunk of `rest`. */
  lemma ChunkStep(codec: Codec, sinkReply: SinkReply, at: nat, offset: nat, rest: nat, w: nat, k: nat)
    requires w > 0 && rest > 0 && k == (if rest < w then rest else w)
    ensures var d := Emit(codec, sinkReply, at, Chunk(offset, k));
            && DeliverChunks(codec, sinkReply, at, offset, Chunks(rest, w))
               == [d] + DeliverChunks(codec, sinkReply, at + 1, offset + k, Chunks(rest - k, w))
            && ShortWrites(DeliverChunks(codec, sinkReply, at, offset, Chunks(rest, w)))
               == (if Short(d) then 1 else 0)
                  + ShortWrites(DeliverChunks(codec, sinkReply, at + 1, offset + k, Chunks(rest - k, w)))
  {
    var cs := Chunks(rest, w);
    assert cs[1..] == Chunks(rest - k, w);
    var ds := DeliverChunks(codec, sinkReply, at, offset, cs);
    assert ds[1..] == DeliverChunks(codec, sinkReply, at + 1, offset + k, Chunks(rest - k, w));
  }

  /** Each frame is handed to the sink exactly once, in buffer order: the i-th
      write encodes the i-th frame and gets the sink's reply for that position. */
  lemma {:induction false} DeliverFramesInOrder(codec: Codec, sinkReply: SinkReply, at: nat, fs: seq<seq<int>>)
    ensures |DeliverFrames(codec, sinkReply, at, fs)| == |fs|
    ensures forall i :: 0 <= i < |fs| ==>
              DeliverFrames(codec, sinkReply, at, fs)[i] == Emit(codec, sinkReply, at + i, Frame(fs[i]))
    decreases |fs|
  {
    if fs != [] {
      DeliverFramesInOrder(codec, sinkReply, at + 1, fs[1..]);
    }
  }

  /** Each chunk is handed to the sink exactly once, in order: the i-th write
      encodes the i-th chunk, which starts where the chunks before it end. */
  lemma {:induction false} DeliverChunksInOrder(codec: Codec, sinkReply: SinkReply, at: nat, offset: nat, cs: seq<nat>)
    ensures |DeliverChunks(codec, sinkReply, at, offset, cs)| == |cs|
    ensures forall i :: 0 <= i < |cs| ==>
              DeliverChunks(codec, sinkReply, at, offset, cs)[i]
              == Emit(codec, sinkReply, at + i, Chunk(offset + Arith.Sum(cs[..i]), cs[i]))
    decreases |cs|
  {
    if cs != [] {
      DeliverChunksInOrder(codec, sinkReply, at + 1, offset + cs[0], cs[1..]);
      forall i | 1 <= i < |cs|
        ensures Arith.Sum(cs[..i]) == cs[0] + Arith.Sum(cs[1..][..i - 1])
      {
        assert cs[..i][1..] == cs[1..][..i - 1];
      }
      assert Arith.Sum(cs[..0]) == 0;
    }
  }

  /** Reports are counted per short write: never more than the writes made, and
      none when the sink takes every byte. */
  lemma {:induction false} ShortWritesBounded(ds: seq<Delivery>)
    ensures ShortWrites(ds) <= |ds|
    ensures (forall i :: 0 <= i < |ds| ==> !Short(ds[i])) ==> ShortWrites(ds) == 0
    decreases |ds|
  {
    if ds != [] {
      ShortWritesBounded(ds[1..]);
    }
  }

  /** A sink that takes the first of two full chunks and cuts the second: the
      direct path still makes both writes and reports exactly one short write. */
  lemma SecondChunkCut(w: nat)
    requires w > 0
    ensures var codec: Codec := (k: nat, input: CodecInput) => [0 as byte];
            var sinkReply: SinkReply := (k: nat, bytes: seq<byte>) => if k == 1 then 0 else |bytes|;
            var ds := DeliverChunks(codec, sinkReply, 0, 0, Chunks(2 * w, w));
            && |ds| == 2 && !Short(ds[0]) && Short(ds[1])
            && ShortWrites(ds) == 1
  {
    var codec: Codec := (k: nat, input: CodecInput) => [0 as byte];
    var sinkReply: SinkReply := (k: nat, bytes: seq<byte>) => if k == 1 then 0 else |bytes|;
    assert Chunks(2 * w, w) == [w] + Chunks(w, w);
    assert Chunks(w, w) == [w];
    assert [w, w][1..] == [w] && [w][1..] == [];
    var d0, d1 := Emit(codec, sinkReply, 0, Chunk(0, w)), Emit(codec, sinkReply, 1, Chunk(w, w));
    assert DeliverChunks(codec, sinkReply, 1, w, [w]) == [d1];
    var ds := DeliverChunks(codec, sinkReply, 0, 0, [w, w]);
    assert ds == [d0, d1];
    assert ds[1..] == [d1] && [d1][1..] == [];
    assert d0.accepted == 1 && d1.accepted == 0 && |d0.bytes| == |d1.bytes| == 1;
    assert ShortWrites([d1]) == 1;
  }

  datatype OpenError =
    | SinkOpenFailed          // the downstream sink did not open
    | EncoderOpenFailed       // aacEncOpen failed
    | ProfileRejected         // the object type or the sample rate was refused
    | ChannelModeUnsupported  // no channel layout for the output channel count
    | SettingsRejected        // channel mode, channel order, bit rate, ADTS, init, lowpass, afterburner or info failed

  datatype OpenOutcome = Opened | OpenFailed(error: OpenError)

  /** The fdk-aac library's replies during `open`, in the order it is asked. */
  datatype CodecReplies = CodecReplies(
    encoderOpens: bool,       // aacEncOpen
    profileAccepted: bool,    // AACENC_AOT, AACENC_SAMPLERATE
    settingsAccepted: bool,   // channel mode, channel order, bit rate, ADTS, init, lowpass, afterburner, info
    frameLength: nat)         // info.frameLength from aacEncInfo

  class AacPlusEncoder {
    // configuration fixed at construction
    const inChannels: nat
    const outChannels: int
    const bitrateKbps: int
    const bitsPerSample: nat
    const resampling: bool     // a converter was set up because the sample rates differ

    // session state
    var aacplusOpen: bool
    var encoderHandleOpen: bool
    var sinkOpen: bool
    var inputSamples: nat      // samples (all channels) the codec takes per frame
    var carry: array<int>      // resampledOffset
    var carrySize: nat         // resampledOffsetSize, in samples per channel

    ghost var frameLength: nat
    ghost var codecProfile: Option<AudioObjectType>
    ghost var codecLayout: Option<ChannelMode>
    ghost var deliveries: seq<Delivery>
    ghost var shortWriteReports: nat
    ghost var sinkFlushes: nat
    ghost var sinkCloses: nat
    ghost var encoderReleases: nat

    /** The carry-over never holds a whole frame between calls. */
    ghost predicate Valid()
      reads this
    {
      && inChannels > 0 && bitsPerSample >= 8
      && (aacplusOpen ==> frameLength > 0 && inputSamples == inChannels * frameLength)
      && (aacplusOpen && resampling ==> carrySize < frameLength && carrySize * inChannels <= carry.Length)
    }

    /** The leftover resampled samples, interleaved, at the front of the carry-over. */
    ghost function Contents(): seq<int>
      reads this, carry
      requires carrySize * inChannels <= carry.Length
    {
      carry[..carrySize * inChannels]
    }

    constructor (inChannels: nat, outChannels: int, bitrateKbps: int, bitsPerSample: nat, resampling: bool)
      requires inChannels > 0 && bitsPerSample >= 8
      ensures Valid()
      ensures this.inChannels == inChannels && this.outChannels == outChannels
      ensures this.bitrateKbps == bitrateKbps && this.bitsPerSample == bitsPerSample
      ensures this.resampling == resampling
      ensures !aacplusOpen && !encoderHandleOpen && !sinkOpen
      ensures deliveries == [] && shortWriteReports == 0
      ensures sinkFlushes == 0 && sinkCloses == 0 && encoderReleases == 0
    {
      this.inChannels := inChannels;
      this.outChannels := outChannels;
      this.bitrateKbps := bitrateKbps;
      this.bitsPerSample := bitsPerSample;
      this.resampling := resampling;
      aacplusOpen, encoderHandleOpen, sinkOpen := false, false, false;
      inputSamples := 0;
      carry := new int[0];
      carrySize := 0;
      frameLength := 0;
      codecProfile, codecLayout := None, None;
      deliveries, shortWriteReports := [], 0;
      sinkFlushes, sinkCloses, encoderReleases := 0, 0, 0;
    }

    /** Opens a session, closing a running one first. `sinkOpens` is what the
        sink's own open returns, `lib` what fdk-aac replies, and `carryCapacity`
        the size the resampler's carry-over gets (at least open's
        2 * channels * (inputSamples + 1)). */
    method Open(sinkOpens: bool, lib: CodecReplies, carryCapacity: nat) returns (outcome: OpenOutcome)
      requires Valid()
      requires lib.frameLength > 0
      requires resampling ==> carryCapacity >= 2 * inChannels * (inChannels * lib.frameLength + 1)
      modifies this
      ensures Valid()
      ensures outcome == Opened <==>
                sinkOpens && lib.encoderOpens && lib.profileAccepted
                && ChannelModeFor(outChannels).Some? && lib.settingsAccepted
      ensures !sinkOpens ==> outcome == OpenFailed(SinkOpenFailed)
      ensures sinkOpens && !lib.encoderOpens ==> outcome == OpenFailed(EncoderOpenFailed)
      ensures sinkOpens && lib.encoderOpens && !lib.profileAccepted ==> outcome == OpenFailed(ProfileRejected)
      ensures sinkOpens && lib.encoderOpens && lib.profileAccepted && ChannelModeFor(outChannels).None? ==>
                outcome == OpenFailed(ChannelModeUnsupported)
      ensures (sinkOpens && lib.encoderOpens && lib.profileAccepted && ChannelModeFor(outChannels).Some?
               && !lib.settingsAccepted) ==> outcome == OpenFailed(SettingsRejected)
      ensures aacplusOpen <==> outcome == Opened
      ensures sinkOpen == sinkOpens
      ensures sinkOpens && lib.encoderOpens ==> encoderHandleOpen
      ensures !(sinkOpens && lib.encoderOpens) ==> encoderHandleOpen == (old(encoderHandleOpen) && !old(aacplusOpen))
      ensures outcome == Opened ==>
                && codecProfile == Some(ObjectTypeFor(bitrateKbps, inChannels))
                && codecLayout == ChannelModeFor(outChannels)
                && inputSamples == inChannels * lib.frameLength
                && (resampling ==> fresh(carry) && carry.Length == carryCapacity && carrySize == 0)
      ensures outcome != Opened ==>
                && inputSamples == old(inputSamples) && frameLength == old(frameLength)
                && carry == old(carry) && carrySize == old(carrySize)
                && codecProfile == old(codecProfile) && codecLayout == old(codecLayout)
      ensures !resampling ==> carry == old(carry) && carrySize == old(carrySize)
      ensures deliveries == old(deliveries) && shortWriteReports == old(shortWriteReports)
      ensures sinkFlushes == old(sinkFlushes) + (if old(aacplusOpen) then 1 else 0)
      ensures sinkCloses == old(sinkCloses) + (if old(aacplusOpen) then 1 else 0)
      ensures encoderReleases == old(encoderReleases) + (if old(aacplusOpen) then 1 else 0)
    {
      if aacplusOpen {
        Close();
      }
      sinkOpen := sinkOpens;
      if !sinkOpens {
        return OpenFailed(SinkOpenFailed);
      }
      if !lib.encoderOpens {
        return OpenFailed(EncoderOpenFailed);
      }
      encoderHandleOpen := true;
      var aot := ObjectTypeFor(bitrateKbps, inChannels);
      if !lib.profileAccepted {
        return OpenFailed(ProfileRejected);
      }
      var mode := ChannelModeFor(outChannels);
      if mode.None? {
        return OpenFailed(ChannelModeUnsupported);
      }
      if !lib.settingsAccepted {
        return OpenFailed(SettingsRejected);
      }
      inputSamples := inChannels * lib.frameLength;
      frameLength := lib.frameLength;
      if resampling {
        carry := new int[carryCapacity];
        carrySize := 0;
      }
      codecProfile, codecLayout := Some(aot), mode;
      aacplusOpen := true;
      outcome := Opened;
    }

    /** Encodes the whole samples of `buf`. `resampled` is what the resampler
        produces from them (used only when resampling), `codec` the encoder and
        `sinkReply` the number of bytes the downstream sink accepts. Returns, as
        aacPlusEncoder.cpp does, `samples * sampleSize`. */
    method Write(buf: seq<byte>, resampled: seq<int>, codec: Codec,
                 sinkReply: SinkReply) returns (written: nat)
      requires Valid()
      requires |resampled| % inChannels == 0
      requires aacplusOpen && resampling ==> carrySize * inChannels + |resampled| <= carry.Length
      modifies this`carrySize, this`deliveries, this`shortWriteReports, carry
      ensures Valid()
      ensures !aacplusOpen || |buf| == 0 ==>
                && written == 0
                && carrySize == old(carrySize) && carry[..] == old(carry[..])
                && deliveries == old(deliveries) && shortWriteReports == old(shortWriteReports)
      ensures aacplusOpen && |buf| > 0 ==>
                written == AlignedLength(|buf|, SampleSize(bitsPerSample, inChannels)) * inChannels
      ensures aacplusOpen && |buf| > 0 && resampling ==>
                var joined := old(Contents()) + resampled;
                var fs := Frames(joined, inputSamples);
                && deliveries == old(deliveries) + DeliverFrames(codec, sinkReply, |old(deliveries)|, fs)
                && shortWriteReports == old(shortWriteReports) + ShortWrites(DeliverFrames(codec, sinkReply, |old(deliveries)|, fs))
                && Contents() == Remainder(joined, inputSamples)
                && carrySize + |fs| * frameLength == old(carrySize) + |resampled| / inChannels
                && |fs| == (old(carrySize) + |resampled| / inChannels) / frameLength
                && carrySize < frameLength
      ensures aacplusOpen && |buf| > 0 && !resampling ==>
                var cs := Chunks(InterleavedSamples(|buf|, bitsPerSample, inChannels), inputSamples);
                && deliveries == old(deliveries) + DeliverChunks(codec, sinkReply, |old(deliveries)|, 0, cs)
                && shortWriteReports == old(shortWriteReports) + ShortWrites(DeliverChunks(codec, sinkReply, |old(deliveries)|, 0, cs))
                && carrySize == old(carrySize) && carry[..] == old(carry[..])
    {
      if !aacplusOpen || |buf| == 0 {
        return 0;
      }
      var channels := inChannels;
      var sampleSize := SampleSize(bitsPerSample, channels);
      Arith.MulLe(1, bitsPerSample / 8, channels);
      var processed := AlignedLength(|buf|, sampleSize);
      var nSamples := processed / sampleSize;
      var samples := nSamples * channels;
      if resampling {
        EncodeResampled(resampled, codec, sinkReply);
      } else {
        EncodeChunks(samples, codec, sinkReply);
      }
      written := samples * sampleSize;
      ReturnIsAlignedTimesChannels(|buf|, bitsPerSample, channels);
    }

    /** The resampling path of `write`: append the converted samples to the
        carry-over, encode every whole frame now in it, and move what is left
        to the front for the next call. */
    method EncodeResampled(resampled: seq<int>, codec: Codec, sinkReply: SinkReply)
      requires Valid() && aacplusOpen && resampling
      requires |resampled| % inChannels == 0
      requires carrySize * inChannels + |resampled| <= carry.Length
      modifies this`carrySize, this`deliveries, this`shortWriteReports, carry
      ensures Valid()
      ensures var joined := old(Contents()) + resampled;
              var fs := Frames(joined, inputSamples);
              && deliveries == old(deliveries) + DeliverFrames(codec, sinkReply, |old(deliveries)|, fs)
              && shortWriteReports == old(shortWriteReports) + ShortWrites(DeliverFrames(codec, sinkReply, |old(deliveries)|, fs))
              && Contents() == Remainder(joined, inputSamples)
              && carrySize + |fs| * frameLength == old(carrySize) + |resampled| / inChannels
              && |fs| == (old(carrySize) + |resampled| / inChannels) / frameLength
              && carrySize < frameLength
    {
      ghost var joined := Contents() + resampled;
      AppendConverted(resampled);
      var processedSamples := DrainFrames(codec, sinkReply);
      ghost var fs := Frames(joined, inputSamples);
      KeepLeftover(processedSamples);
      Arith.DivUnique(old(carrySize) + |resampled| / inChannels, frameLength, |fs|, carrySize);
    }

    /** After the drain: drop the `processedSamples` samples per channel that
        were encoded and move the leftover to the front of the carry-over. */
    method KeepLeftover(processedSamples: nat)
      requires processedSamples <= carrySize && carrySize * inChannels <= carry.Length
      modifies this`carrySize, carry
      ensures carrySize == old(carrySize) - processedSamples
      ensures carrySize * inChannels <= carry.Length
      ensures Contents() == old(Contents())[processedSamples * inChannels..]
      ensures processedSamples == 0 ==> carry[..] == old(carry[..])
    {
      var channels := inChannels;
      ghost var stream := Contents();
      ghost var from := processedSamples * channels;
      Arith.MulSub(carrySize, processedSamples, channels);
      if processedSamples != 0 && carrySize >= processedSamples {
        carrySize := carrySize - processedSamples;
        if carrySize != 0 {
          MoveToFront(processedSamples * channels, carrySize * channels);
          assert Contents() == stream[from..];
        }
      }
    }

    /** The resampler writing its output into the carry-over right after the
        leftover (at `resampledOffset[resampledOffsetSize * channels]`), and the
        leftover count growing by the samples per channel it produced. */
    method AppendConverted(resampled: seq<int>)
      requires inChannels > 0 && |resampled| % inChannels == 0
      requires carrySize * inChannels + |resampled| <= carry.Length
      modifies this`carrySize, carry
      ensures carrySize == old(carrySize) + |resampled| / inChannels
      ensures carrySize * inChannels <= carry.Length
      ensures Contents() == old(Contents()) + resampled
    {
      var base := carrySize * inChannels;
      forall i | 0 <= i < |resampled| {
        carry[base + i] := resampled[i];
      }
      assert carry[..base + |resampled|] == carry[..base] + carry[base..base + |resampled|];
      var converted := |resampled| / inChannels;
      assert converted * inChannels == |resampled|;
      Arith.MulAdd(carrySize, converted, inChannels);
      carrySize := carrySize + converted;
    }

    /** The frame-drain loop: while a whole frame (`inputSamples / channels`
        samples per channel) is left, encode it and hand the bytes to the sink;
        a short write is reported and the loop goes on. Returns the samples per
        channel consumed. */
    method DrainFrames(codec: Codec, sinkReply: SinkReply) returns (processedSamples: nat)
      requires inChannels > 0 && frameLength > 0 && inputSamples == inChannels * frameLength
      requires carrySize * inChannels <= carry.Length
      modifies this`deliveries, this`shortWriteReports
      ensures var fs := Frames(Contents(), inputSamples);
              && deliveries == old(deliveries) + DeliverFrames(codec, sinkReply, |old(deliveries)|, fs)
              && shortWriteReports == old(shortWriteReports) + ShortWrites(DeliverFrames(codec, sinkReply, |old(deliveries)|, fs))
              && processedSamples == |fs| * frameLength
      ensures processedSamples <= carrySize < processedSamples + frameLength
      ensures processedSamples * inChannels <= |Contents()|
      ensures Remainder(Contents(), inputSamples) == Contents()[processedSamples * inChannels..]
    {
      var channels, w := inChannels, inputSamples;
      Arith.DivOfProduct(channels, frameLength);
      var frame := w / channels;
      assert frame * channels == w;
      ghost var stream := Contents();
      ghost var log := old(deliveries) + DeliverFrames(codec, sinkReply, |old(deliveries)|, Frames(stream, w));
      ghost var reports := old(shortWriteReports) + ShortWrites(DeliverFrames(codec, sinkReply, |old(deliveries)|, Frames(stream, w)));
      ghost var count: nat := 0;
      var start: nat := 0;
      processedSamples := 0;
      while carrySize - processedSamples >= frame
        invariant processedSamples <= carrySize
        invariant processedSamples == count * frame && start == processedSamples * channels
        invariant start <= |stream|
        invariant log == deliveries + DeliverFrames(codec, sinkReply, |deliveries|, Frames(stream[start..], w))
        invariant reports == shortWriteReports + ShortWrites(DeliverFrames(codec, sinkReply, |deliveries|, Frames(stream[start..], w)))
        invariant |Frames(stream, w)| == count + |Frames(stream[start..], w)|
        invariant Remainder(stream[start..], w) == Remainder(stream, w)
        decreases carrySize - processedSamples
      {
        Arith.MulLe(processedSamples + frame, carrySize, channels);
        Arith.MulAdd(processedSamples, frame, channels);
        Arith.MulAdd(count, 1, frame);
        var input := Frame(carry[start..start + w]);
        assert input.samples == stream[start..start + w];
        var bytes := codec(|deliveries|, input);
        var wrote := sinkReply(|deliveries|, bytes);
        DrainStep(codec, sinkReply, |deliveries|, stream, start, w);
        AppendAssoc(deliveries, [Delivery(input, bytes, wrote)],
                    DeliverFrames(codec, sinkReply, |deliveries| + 1, Frames(stream[start + w..], w)));
        deliveries := deliveries + [Delivery(input, bytes, wrote)];
        if wrote < |bytes| {
          shortWriteReports := shortWriteReports + 1;
        }
        count := count + 1;
        start := start + w;
        processedSamples := processedSamples + frame;
      }
      Arith.MulLt(carrySize - processedSamples, frame, channels);
      Arith.MulSub(carrySize, processedSamples, channels);
      assert Frames(stream[start..], w) == [];
    }

    /** `memmove(resampledOffset, &resampledOffset[from], count)`: an
        overlapping move toward the front, all reads before all writes. */
    method MoveToFront(from: nat, count: nat)
      requires from + count <= carry.Length
      modifies carry
      ensures carry[..] == Compacted(old(carry[..]), from, count)
    {
      forall i | 0 <= i < count {
        carry[i] := carry[from + i];
      }
    }

    /** The direct path: slice `samples` into chunks of at most `inputSamples`,
        the last one possibly shorter, encode each and hand it to the sink; a
        short write is reported and the loop goes on. */
    method EncodeChunks(samples: nat, codec: Codec, sinkReply: SinkReply)
      requires inputSamples > 0
      modifies this`deliveries, this`shortWriteReports
      ensures deliveries == old(deliveries) + DeliverChunks(codec, sinkReply, |old(deliveries)|, 0, Chunks(samples, inputSamples))
      ensures shortWriteReports ==
                old(shortWriteReports) + ShortWrites(DeliverChunks(codec, sinkReply, |old(deliveries)|, 0, Chunks(samples, inputSamples)))
    {
      var w := inputSamples;
      ghost var log := old(deliveries) + DeliverChunks(codec, sinkReply, |old(deliveries)|, 0, Chunks(samples, w));
      ghost var reports := old(shortWriteReports) + ShortWrites(DeliverChunks(codec, sinkReply, |old(deliveries)|, 0, Chunks(samples, w)));
      var processedSamples: nat := 0;
      while processedSamples < samples
        invariant processedSamples <= samples
        invariant log == deliveries + DeliverChunks(codec, sinkReply, |deliveries|, processedSamples, Chunks(samples - processedSamples, w))
        invariant reports == shortWriteReports + ShortWrites(DeliverChunks(codec, sinkReply, |deliveries|, processedSamples, Chunks(samples - processedSamples, w)))
      {
        var inSamples: nat := if samples - processedSamples < w then samples - processedSamples else w;
        var input := Chunk(processedSamples, inSamples);
        var bytes := codec(|deliveries|, input);
        var wrote := sinkReply(|deliveries|, bytes);
        ChunkStep(codec, sinkReply, |deliveries|, processedSamples, samples - processedSamples, w, inSamples);
        AppendAssoc(deliveries, [Delivery(input, bytes, wrote)],
                    DeliverChunks(codec, sinkReply, |deliveries| + 1, processedSamples + inSamples, Chunks(samples - processedSamples - inSamples, w)));
        deliveries := deliveries + [Delivery(input, bytes, wrote)];
        if wrote < |bytes| {
          shortWriteReports := shortWriteReports + 1;
        }
        processedSamples := processedSamples + inSamples;
      }
      assert deliveries + [] == deliveries;
    }

    /** Forwards a flush to the sink while the session is open; never encodes
        or emits anything itself, so no partial frame leaves the carry-over. */
    method Flush()
      modifies this`sinkFlushes
      ensures sinkFlushes == old(sinkFlushes) + (if aacplusOpen then 1 else 0)
    {
      if aacplusOpen {
        sinkFlushes := sinkFlushes + 1;
      }
    }

    /** Ends an open session: flush, release the codec, mark closed, close the
        sink. On a closed encoder it does nothing, so closing twice is closing once. */
    method Close()
      requires Valid()
      modifies this`aacplusOpen, this`encoderHandleOpen, this`sinkOpen
      modifies this`sinkFlushes, this`sinkCloses, this`encoderReleases
      ensures Valid() && !aacplusOpen
      ensures old(aacplusOpen) ==>
                && !encoderHandleOpen && !sinkOpen
                && sinkFlushes == old(sinkFlushes) + 1
                && encoderReleases == old(encoderReleases) + 1
                && sinkCloses == old(sinkCloses) + 1
      ensures !old(aacplusOpen) ==> unchanged(this)
    {
      if aacplusOpen {
        Flush();
        encoderHandleOpen := false;
        encoderReleases := encoderReleases + 1;
        aacplusOpen := false;
        sinkOpen := false;
        sinkCloses := sinkCloses + 1;
      }
    }
  }
}

=== FILE: arith.dfy ===
/** Small facts about multiplication and division by a positive number,
    used where per-channel sample counts meet interleaved buffer indices, and
    the sum of a sequence of counts. */
module Arith {

  function Sum(s: seq<nat>): nat
  {
    if s == [] then 0 else s[0] + Sum(s[1..])
  }

  lemma {:induction false} MulLe(a: nat, b: nat, c: nat)
    requires a <= b
    ensures a * c <= b * c
  {
    if c > 0 {
      MulLe(a, b, c - 1);
      assert a * c == a * (c - 1) + a;
      assert b * c == b * (c - 1) + b;
    }
  }

  lemma MulAdd(a: nat, b: nat, c: nat)
    ensures (a + b) * c == a * c + b * c
  {
  }

  lemma MulSub(a: nat, b: nat, c: nat)
    requires b <= a
    ensures (a - b) * c == a * c - b * c
  {
  }

  /** Scaling by a positive factor keeps a strict order. */
  lemma MulLt(a: nat, b: nat, c: nat)
    requires a < b && c > 0
    ensures a * c < b * c
  {
    MulLe(a + 1, b, c);
    assert (a + 1) * c == a * c + c;
  }

  /** Division is determined by quotient and remainder. */
  lemma DivUnique(n: nat, d: nat, q: nat, r: nat)
    requires d > 0 && n == q * d + r && r < d
    ensures n / d == q && n % d == r
  {
    var q', r' := n / d, n % d;
    assert n == q' * d + r';
    if q < q' {
      MulLe(q + 1, q', d);
      assert false;
    } else if q' < q {
      MulLe(q' + 1, q, d);
      assert false;
    }
  }

  lemma DivOfProduct(c: nat, f: nat)
    requires c > 0
    ensures (c * f) / c == f
  {
    DivUnique(c * f, c, f, 0);
  }
}

=== FILE: frame_batching.dfy ===
/** The batching arithmetic of `aacPlusEncoder::write`, stated on values:
    cutting a carried-over sample stream into whole codec frames, slicing a
    direct PCM buffer into codec-sized chunks, and compacting the carry-over
    buffer once its leading frames are consumed. */
module FrameBatching {
  import Arith

  /** The whole frames of `w` entries at the front of `s`, in order. */
  function Frames(s: seq<int>, w: nat): (fs: seq<seq<int>>)
    requires w > 0
    ensures forall i :: 0 <= i < |fs| ==> |fs[i]| == w
    decreases |s|
  {
    if |s| < w then [] else [s[..w]] + Frames(s[w..], w)
  }

  /** What is left of `s` once all its whole frames are taken off the front. */
  function Remainder(s: seq<int>, w: nat): (t: seq<int>)
    requires w > 0
    decreases |s|
  {
    if |s| < w then s else Remainder(s[w..], w)
  }

  function Flatten(fs: seq<seq<int>>): seq<int>
  {
    if fs == [] then [] else fs[0] + Flatten(fs[1..])
  }

  /** Conservation and order: the frames, laid end to end, followed by the
      remainder, give back the stream; the remainder is shorter than a frame. */
  lemma {:induction false} FramesConserve(s: seq<int>, w: nat)
    requires w > 0
    ensures Flatten(Frames(s, w)) + Remainder(s, w) == s
    ensures |Remainder(s, w)| < w
    decreases |s|
  {
    if |s| >= w {
      FramesConserve(s[w..], w);
      assert Frames(s, w)[1..] == Frames(s[w..], w);
      assert s == s[..w] + s[w..];
    }
  }

  /** The frame count is the stream length divided by the frame width, and the
      remainder is what that division leaves. */
  lemma {:induction false} FrameCount(s: seq<int>, w: nat)
    requires w > 0
    ensures |Frames(s, w)| * w + |Remainder(s, w)| == |s|
    ensures |Frames(s, w)| == |s| / w
    ensures |Remainder(s, w)| == |s| % w
    decreases |s|
  {
    if |s| >= w {
      FrameCount(s[w..], w);
      var k := |Frames(s[w..], w)|;
      assert (k + 1) * w == k * w + w;
    }
    FramesConserve(s, w);
    Arith.DivUnique(|s|, w, |Frames(s, w)|, |Remainder(s, w)|);
  }

  /** Cutting at a frame boundary: the frames of `s[start..]` are its first
      frame followed by the frames after it, and the remainder is the same. */
  lemma FramesFrom(s: seq<int>, start: nat, w: nat)
    requires w > 0 && start + w <= |s|
    ensures Frames(s[start..], w) == [s[start..start + w]] + Frames(s[start + w..], w)
    ensures Remainder(s[start..], w) == Remainder(s[start + w..], w)
  {
    assert s[start..][..w] == s[start..start + w];
    assert s[start..][w..] == s[start + w..];
  }

  /** The chunk sizes the direct path hands to the codec for `n` samples:
      `w` at a time, the last chunk taking whatever is left. */
  function Chunks(n: nat, w: nat): (cs: seq<nat>)
    requires w > 0
    decreases n
  {
    if n == 0 then []
    else
      var k := if n < w then n else w;
      [k] + Chunks(n - k, w)
  }

  /** Every chunk is non-empty and at most `w`; all but the last are exactly `w`. */
  lemma {:induction false} ChunksBounded(n: nat, w: nat)
    requires w > 0
    ensures forall i :: 0 <= i < |Chunks(n, w)| ==> 0 < Chunks(n, w)[i] <= w
    ensures forall i :: 0 <= i < |Chunks(n, w)| - 1 ==> Chunks(n, w)[i] == w
    decreases n
  {
    if n >= w {
      ChunksBounded(n - w, w);
      assert Chunks(n, w) == [w] + Chunks(n - w, w);
    }
  }

  /** The chunks add up to `n`: every sample is handed to the codec once. */
  lemma {:induction false} ChunksSum(n: nat, w: nat)
    requires w > 0
    ensures Arith.Sum(Chunks(n, w)) == n
    decreases n
  {
    if n > 0 {
      var k := if n < w then n else w;
      ChunksSum(n - k, w);
      assert Chunks(n, w)[1..] == Chunks(n - k, w);
    }
  }

  /** There are ceil(n / w) chunks. */
  lemma {:induction false} ChunksCount(n: nat, w: nat)
    requires w > 0
    ensures |Chunks(n, w)| == (n + w - 1) / w
    decreases n
  {
    if n == 0 {
      Arith.DivUnique(w - 1, w, 0, w - 1);
    } else if n <= w {
      assert Chunks(n, w) == [n];
      Arith.DivUnique(n + w - 1, w, 1, n - 1);
    } else {
      ChunksCount(n - w, w);
      var k := |Chunks(n - w, w)|;
      assert |Chunks(n, w)| == k + 1;
      var r := (n - 1) % w;
      assert n - 1 == k * w + r;
      Arith.DivUnique(n + w - 1, w, k + 1, r);
    }
  }

  /** The buffer after `memmove(buf, &buf[from], count)`: the `count` entries
      starting at `from` are copied to the front; everything from `count` on is
      as it was. */
  function Compacted(buf: seq<int>, from: nat, count: nat): (r: seq<int>)
    requires from + count <= |buf|
    ensures |r| == |buf|
  {
    buf[from..from + count] + buf[count..]
  }

  /** The number of 16-bit carry-over entries the integer-resampler branch of
      `write` moves: its memmove length is `size * sampleSize` BYTES, with
      `sampleSize` the INPUT bytes per sample, over an array of shorts. */
  function ShortsMovedAsWritten(size: nat, bitsPerSample: nat, channels: nat): nat
  {
    (size * ((bitsPerSample / 8) * channels)) / 2
  }

  /** With 16-bit input the moved length is exactly the leftover. */
  lemma ShortsMovedExactFor16Bit(size: nat, channels: nat)
    ensures ShortsMovedAsWritten(size, 16, channels) == size * channels
  {
    Arith.DivUnique(size * (2 * channels), 2, size * channels, 0);
  }

  /** A concrete case: mono 8-bit input, five entries in the carry-over and a
      frame of three. The drain loop takes one frame and leaves [40, 50]; the
      compaction as written moves one entry, so the stale 20 stays where the
      leftover 50 belongs. */
  lemma LeftoverCorruptedFor8BitInput()
    ensures var buf := [10, 20, 30, 40, 50];
            var moved := ShortsMovedAsWritten(2, 8, 1);
            && Frames(buf, 3) == [[10, 20, 30]]
            && Remainder(buf, 3) == buf[3..] == [40, 50]
            && moved == 1
            && Compacted(buf, 3, moved)[..2] == [40, 20]
            && Compacted(buf, 3, moved)[..2] != Remainder(buf, 3)
  {
    var buf := [10, 20, 30, 40, 50];
    var rest := buf[3..];
    assert buf[..3] == [10, 20, 30] && rest == [40, 50] && |rest| < 3;
    assert Frames(rest, 3) == [] && Remainder(rest, 3) == rest;
    assert Frames(buf, 3) == [buf[..3]] + Frames(rest, 3);
    assert Remainder(buf, 3) == Remainder(rest, 3);
    var c := Compacted(buf, 3, 1);
    assert c == buf[3..4] + buf[1..] == [40, 20, 30, 40, 50];
  }

  /** The compaction as written, over every carry-over, with input samples of
      two bytes or more: the memmove covers the whole leftover (`size * channels`
      entries after the consumed `from`), so the leftover lands at the front. */
  lemma MemmoveAsWrittenKeepsLeftover(size: nat, bitsPerSample: nat, channels: nat, from: nat)
    requires bitsPerSample / 8 >= 2
    ensures ShortsMovedAsWritten(size, bitsPerSample, channels) >= size * channels
    ensures forall buf: seq<int> :: from + ShortsMovedAsWritten(size, bitsPerSample, channels) <= |buf| ==>
              Compacted(buf, from, ShortsMovedAsWritten(size, bitsPerSample, channels))[..size * channels]
              == buf[from..from + size * channels]
  {
    var b := bitsPerSample / 8;
    assert size * (b * channels) == b * (size * channels);
    Arith.MulLe(2, b, size * channels);
  }

  /** The compaction as written with one-byte input samples: it moves fewer
      entries than are left over, and on some carry-over a stale entry is left
      where the leftover belongs. */
  lemma MemmoveAsWrittenLosesLeftover(size: nat, bitsPerSample: nat, channels: nat, from: nat)
    requires size > 0 && channels > 0 && 8 <= bitsPerSample < 16 && from > 0
    ensures ShortsMovedAsWritten(size, bitsPerSample, channels) < size * channels
    ensures exists buf: seq<int> :: |buf| == from + size * channels
              && Compacted(buf, from, ShortsMovedAsWritten(size, bitsPerSample, channels))[..size * channels] != buf[from..]
  {
    var count, moved := size * channels, ShortsMovedAsWritten(size, bitsPerSample, channels);
    assert bitsPerSample / 8 == 1;
    assert moved == count / 2;
    var buf := seq(from + count, j => j);
    assert Compacted(buf, from, moved)[moved] == moved;
    assert buf[from..][moved] == from + moved;
  }
}

=== FILE: pcm_alignment.dfy ===
/** How `aacPlusEncoder::write` turns an arbitrary-length byte buffer of
    interleaved PCM into a count of whole samples. */
module PcmAlignment {
  import Arith

  newtype byte = x: int | 0 <= x < 256

  /** Bytes per interleaved sample frame: one sample for every input channel. */
  function SampleSize(bitsPerSample: nat, channels: nat): nat
  {
    (bitsPerSample / 8) * channels
  }

  /** `processed`: the bytes of a `len`-byte buffer that form whole samples;
      the trailing partial sample is dropped. */
  function AlignedLength(len: nat, sampleSize: nat): (processed: nat)
    requires sampleSize > 0
    ensures processed <= len
    ensures processed % sampleSize == 0
    ensures len - processed < sampleSize
  {
    Arith.DivUnique(len - len % sampleSize, sampleSize, len / sampleSize, 0);
    len - len % sampleSize
  }

  /** No longer prefix of whole samples exists: AlignedLength is the largest one. */
  lemma AlignedLengthIsLargest(len: nat, sampleSize: nat, m: nat)
    requires sampleSize > 0
    requires m <= len && m % sampleSize == 0
    ensures m <= AlignedLength(len, sampleSize)
  {
    var p := AlignedLength(len, sampleSize);
    var k, q := m / sampleSize, p / sampleSize;
    assert m == k * sampleSize;
    assert p == q * sampleSize;
    if q < k {
      Arith.MulLe(q + 1, k, sampleSize);
      assert false;
    }
    Arith.MulLe(k, q, sampleSize);
  }

  /** `samples` in `write`: the number of individual (per-channel) samples
      in the whole-sample part of the buffer. */
  function InterleavedSamples(len: nat, bitsPerSample: nat, channels: nat): nat
    requires bitsPerSample >= 8 && channels > 0
  {
    var size := SampleSize(bitsPerSample, channels);
    AlignedLength(len, size) / size * channels
  }

  /** The value `write` returns, `samples * sampleSize`, is the aligned byte count
      multiplied once more by the channel count. */
  lemma {:induction false} ReturnIsAlignedTimesChannels(len: nat, bitsPerSample: nat, channels: nat)
    requires bitsPerSample >= 8 && channels > 0
    ensures InterleavedSamples(len, bitsPerSample, channels) * SampleSize(bitsPerSample, channels)
            == AlignedLength(len, SampleSize(bitsPerSample, channels)) * channels
  {
    var size := SampleSize(bitsPerSample, channels);
    Arith.MulLe(1, bitsPerSample / 8, channels);
    var p := AlignedLength(len, size);
    var n := p / size;
    assert p == n * size;
    calc {
      InterleavedSamples(len, bitsPerSample, channels) * size;
      (n * channels) * size;
      { assert (n * channels) * size == (n * size) * channels; }
      (n * size) * channels;
      p * channels;
    }
  }

  /** For two or more channels and at least one whole sample, the returned
      count exceeds the number of bytes the caller passed in. */
  lemma ReturnExceedsLength(len: nat, bitsPerSample: nat, channels: nat)
    requires bitsPerSample >= 8 && channels >= 2
    requires len >= SampleSize(bitsPerSample, channels)
    ensures InterleavedSamples(len, bitsPerSample, channels) * SampleSize(bitsPerSample, channels) > len
  {
    var size := SampleSize(bitsPerSample, channels);
    Arith.MulLe(1, bitsPerSample / 8, channels);
    ReturnIsAlignedTimesChannels(len, bitsPerSample, channels);
    var p := AlignedLength(len, size);
    AlignedLengthIsLargest(len, size, size);
    Arith.MulLe(2, channels, p);
    assert 2 * p == p + p;
  }
}
